=== FILE: README.md ===
# RTSP ingest control logic, modelled in Dafny

This project models the control logic of an RTSP video-ingest client built
on GStreamer:

- how one source's element chain is chosen and named (`RTSPBin`);
- how the reader's dynamic pads are routed back to their source by the index
  in the reader's name, and linked or unlinked idempotently (`RTSPHandler`);
- the EOS latch, the per-source liveness table with its probe interval, and
  the single-attempt pipeline recovery (`RTSPHandler`);
- the video-caps filter of `DecodeBinHandler`;
- the windowed frame counter `GetFPS`;
- the multi-stream setup that feeds them: source URLs, tiler grid, block map;
- the C client's argument parsing into fixed 50-byte buffers, and `main`'s
  platform guard, argument choice and `strcat`-built factory names.

The GStreamer graph is a value: a set of pad links (`PadGraph`), with
`gst_pad_link` and `gst_pad_unlink` following the library's contract. Every
environment answer is an input:

- the caps string;
- whether caps negotiate;
- each liveness probe's `isOpened()`;
- the `get_state` answer;
- clock readings;
- the machine name and the compiler's predefined macros.

Sleeps, state changes and the seek are entries in an action log.
Exceptions and C undefined behaviour are error values.

Files, one module each: `results.dfy` (Option/Result), `text.dfy` (Python
`str(int)`, `split`, `int()`, `startswith`), `rtsp_bin.dfy`, `pad_graph.dfy`,
`reader_pads.dfy`, `decode_bin.dfy`, `liveness.dfy`, `reconnection.dfy`,
`fps.dfy`, `multi_rtsp.dfy`, `c_args.dfy`, `c_main.dfy`.

Facts about the code that shape the model:

- `gstreamer_wrappers.py` defines no `StreamMuxHandler`, so there is no
  request/release ("multiplexed") pad strategy to model.
- `DecodeBinHandler` re-queries caps on removal and caches nothing.
- Probing happens on alternate bus messages, not after a time interval.
- A failed recovery raises an exception out of the bus callback.

## Model

| member | source | states |
|---|---|---|
| Text.ParseIntRoundTrip | src/python/common/gstreamer_wrappers.py:157 | `int(str(n)) == n` for every integer n, negative ones included |
| Text.NatToStringRoundTrip | src/python/common/gstreamer_wrappers.py:72 | reading back the decimal spelling of a natural number gives the number |
| Text.LastSegmentByLastSeparator | src/python/common/gstreamer_wrappers.py:157 | `split(sep)[-1]` is the text after the last separator, or the whole string when there is none |
| Text.LastSegmentAfterSeparator | src/python/common/gstreamer_wrappers.py:157 | `(a + "_" + b).split('_')[-1] == b` whenever b has no underscore |
| Text.SplitAtSeparator | src/python/common/gstreamer_wrappers.py:157 | splitting `a + sep + b` gives the pieces of a followed by the pieces of b |
| Text.JoinSplit | src/python/common/gstreamer_wrappers.py:157 | joining the pieces of a split with the separator rebuilds the string |
| Text.SplitWithoutSeparator | src/python/common/gstreamer_wrappers.py:157 | a string without the separator splits into itself alone |
| Text.ParseIntNeedsDigits | src/python/common/gstreamer_wrappers.py:157 | a name suffix with no digit makes `int()` raise ValueError |
| RtspBin.Build | src/python/common/gstreamer_wrappers.py:30-91 | KeyError exactly for a compression other than h264/h265, before any element is made. On aarch64: depayer `rtp<c>depay`, parser `<c>parse`, nvv4l2decoder with its two properties, connect_plugin = depayer. Otherwise: decodebin `decode_container_<id>` is the connect_plugin and depayer/parser stay None. The reader is `rtspsrc_<id>` with location, TCP and retry set |
| RtspBin.ChainFollowsMachine | src/python/common/nvutils.py:73-74 | the staged chain is built iff the machine field is "aarch64" |
| RtspBin.SourceIdOfWholeName | src/python/common/gstreamer_wrappers.py:157 | `SourceIdOf`: a name without an underscore is read as a whole by `int()` |
| RtspBin.SourceIdAfterLastUnderscore | src/python/common/gstreamer_wrappers.py:157 | `SourceIdOf`: the index is `int()` of what follows the last underscore of the name |
| RtspBin.IsAarch64 | src/python/common/nvutils.py:73-74 | true exactly for the machine string "aarch64", compared case-sensitively, so "arm64" and "AARCH64" do not qualify |
| RtspBin.ReaderNameRoundTrip | src/python/common/gstreamer_wrappers.py:157 | the index parsed from `rtspsrc_<id>` is id, for every integer id |
| RtspBin.InstanceNameRoundTrip | src/python/common/gstreamer_wrappers.py:79-90 | every `<base>_<id>` name parses back to id |
| RtspBin.ChainNamesCarryId | src/python/common/gstreamer_wrappers.py:72-90 | every element of a built chain names its builder id |
| PadGraph.GstLink | src/python/common/gstreamer_wrappers.py:161 | a link is added only when neither pad has a peer and caps negotiate; nothing else changes |
| PadGraph.GstUnlink | src/python/common/gstreamer_wrappers.py:174 | exactly the (src, sink) link is removed, if present |
| PadGraph.AtMostOneLinkInto | src/python/common/gstreamer_wrappers.py:159-161 | with unique peers a sink pad carries at most one link |
| ReaderPads.Route | src/python/common/gstreamer_wrappers.py:157-159 | succeeds iff the name yields an integer that is a key of the block map, giving that block; ValueError when the suffix is no integer, KeyError (NoSuchBlock) when the key is missing |
| ReaderPads.OnPadAdded | src/python/common/gstreamer_wrappers.py:147-161 | raises iff the name suffix is not an integer or not a block key. Otherwise it never removes a link and never touches an already linked sink pad. It adds the (pad, sink) link iff the sink pad was unlinked, the pad free and caps compatible |
| ReaderPads.OnPadRemoved | src/python/common/gstreamer_wrappers.py:163-174 | raises under the same routing conditions; otherwise removes exactly the (pad, sink) link if it exists |
| ReaderPads.AtMostOneLinkPerSink | src/python/common/gstreamer_wrappers.py:157-174 | any sequence of pad-added/pad-removed events keeps every pad to one peer and every sink pad to at most one link |
| ReaderPads.PadAddedIdempotent | src/python/common/gstreamer_wrappers.py:159-161 | a repeated pad-added event changes nothing more |
| ReaderPads.PadRemovedIdempotent | src/python/common/gstreamer_wrappers.py:172-174 | a repeated pad-removed event changes nothing more |
| ReaderPads.AddThenRemoveRestores | src/python/common/gstreamer_wrappers.py:157-174 | removing the pad just added restores the graph |
| DecodeBin.MatchCount | src/python/common/gstreamer_wrappers.py:274 | the `sum` of prefix tests is at most the number of formats and positive iff some format is a prefix |
| DecodeBin.VideoCapsIff | src/python/common/gstreamer_wrappers.py:269-274 | the test accepts exactly caps starting with video/x-raw, video/h264 or video/h265 |
| DecodeBin.OnPadAdded | src/python/common/gstreamer_wrappers.py:271-275 | non-video caps leave the graph unchanged; otherwise only the (src, sink) link can be added, and it is iff both pads are free and caps negotiate |
| DecodeBin.OnPadRemoved | src/python/common/gstreamer_wrappers.py:277-281 | non-video caps leave the graph unchanged; video caps remove exactly the (src, sink) link |
| DecodeBin.AudioPadIgnored | src/python/common/gstreamer_wrappers.py:269-281 | an `audio/` pad is never linked and never unlinked |
| DecodeBin.AddThenRemoveRestores | src/python/common/gstreamer_wrappers.py:271-281 | removing a pad right after adding it restores the graph |
| Liveness.ProbeSource | src/python/common/gstreamer_wrappers.py:213-225 | the entry always ends equal to the observation; alive is cleared iff the source was recorded unreachable and is observed reachable |
| Liveness.ProbeCycle | src/python/common/gstreamer_wrappers.py:208-226 | after a cycle every probed source holds its observation, other entries are kept, no entry is lost. Alive is cleared iff some recorded-unreachable source came back |
| Liveness.CheckFlow | src/python/common/gstreamer_wrappers.py:200-228 | disabled: no change. A cycle runs iff timer > threshold and there are 2+ sources, and then the timer resets to 0. A skipped call adds 1 to the timer and changes nothing else |
| Liveness.ProbeSchedule | src/python/common/gstreamer_wrappers.py:119-121 | from the initial handler with several sources the first call probes and probes then fall on alternate calls |
| Liveness.SingleSourceNeverProbes | src/python/common/gstreamer_wrappers.py:206 | with one source no call ever probes: table and alive untouched, timer counts calls |
| Liveness.EntriesNeverRemoved | src/python/common/gstreamer_wrappers.py:213-225 | no sequence of calls removes a table entry |
| Liveness.ReawakeningScenario | src/python/common/gstreamer_wrappers.py:216-220 | three cycles with source 1 down keep alive; it coming back clears alive once; a further all-up cycle does not |
| Reconnection.NewHandler | src/python/common/gstreamer_wrappers.py:104-121 | starts alive, unlatched, with the initial monitor (timer 1e5, empty table), sleeps 10 s between recovery steps, passes 5 to `get_state` (a GstClockTime, so 5 ns), and sets the pipeline PLAYING |
| Reconnection.CheckState | src/python/common/gstreamer_wrappers.py:176-183 | the check passes iff the answer is SUCCESS with the pipeline in the target state, whatever the pending state; an ASYNC answer always fails it |
| Reconnection.CheckEos | src/python/common/gstreamer_wrappers.py:185-198 | latched: no change; unlatched: EOS latches and marks dead, any other message marks alive |
| Reconnection.ReconnectionCallback | src/python/common/gstreamer_wrappers.py:230-258 | EOS check, then flow check: for an unlatched non-EOS message, recovery starts iff the probe runs and sees a recorded-unreachable source come back; an unlatched EOS always starts it. Recovery runs iff the pipeline is then dead, as sleep, NULL, READY, PLAYING, seek to 0, sleep, state query. PLAYING/SUCCESS returns alive with the latch cleared after one pass. Anything else raises, leaving it dead, after one more state query |
| Reconnection.LatchHolds | src/python/common/gstreamer_wrappers.py:191 | once latched, no message sequence changes the EOS state |
| Reconnection.LatchSetIffEos | src/python/common/gstreamer_wrappers.py:185-198 | from unlatched, the latch is set after a sequence iff it contains an EOS, and the pipeline is then dead |
| Reconnection.EosRecoveryScenario | src/python/common/gstreamer_wrappers.py:239-256 | EOS on a running pipeline with a PLAYING/SUCCESS answer runs one recovery pass and ends alive and unlatched |
| Reconnection.FailedEosRecoveryRetriesOnNextMessage | src/python/common/gstreamer_wrappers.py:239-258 | after a failed recovery with the latch set, the next message of any type starts another pass |
| Reconnection.FailedFlowRecoveryAbandoned | src/python/common/gstreamer_wrappers.py:191-258 | after a failed probe-triggered recovery, the next non-EOS message marks alive and attempts nothing (the probe is skipped on that call) |
| Fps.NewCounter | src/python/common/nvutils.py:28-43 | a new counter is first-call, with the start time copied from the module's load time and the frame count 0, the value of the module global that nothing reassigns |
| Fps.GetFps | src/python/common/nvutils.py:51-66 | a call counts one frame iff now minus the window start is at most seconds, keeping the start. Otherwise, when seconds is 0 it raises ZeroDivisionError; else it reports fps with fps * seconds == frames counted, logs iff save_log, and opens a new window at now with count 0 |
| Fps.FirstCallCounts | src/python/common/nvutils.py:53-66 | with seconds >= 0 the first call opens the window at now and counts one frame |
| Fps.WindowReportsCountedCalls | src/python/common/nvutils.py:56-66 | calls inside one window are all counted, and the closing call reports their number divided by seconds without counting itself |
| MultiRtsp.SourceUrls | src/python/gst_read_multiple_rtsp.py:21 | one URL per name, in order, each `rtsp://ip:port/` followed by the name |
| MultiRtsp.UrlNameRecoverable | src/python/gst_read_multiple_rtsp.py:21 | every URL starts with `rtsp://` and the common address, and the name is what follows |
| MultiRtsp.RunSources | src/python/gst_read_multiple_rtsp.py:21 | as the script is written: a run always has at least one source, one per given name; with -name omitted it has six, one per character of 'stream' (the as-written half of the utils.py:9 Finding) |
| MultiRtsp.OmittedNameAsWrittenGivesSixSources | src/python/common/utils.py:9 | as written, omitting -name yields six URLs ending in s ... m |
| MultiRtsp.OmittedNameGivesOneSource | src/python/common/utils.py:9 | with the default as one name, the run has the single URL rtsp://127.0.0.1:8554/stream |
| MultiRtsp.IntSqrt | src/python/gst_read_multiple_rtsp.py:28 | the result r satisfies r*r <= n < (r+1)*(r+1) |
| MultiRtsp.CeilQuotientBounds | src/python/gst_read_multiple_rtsp.py:29 | with rows*rows <= n, ceil(n/rows) columns hold n with no spare column and are at least rows |
| MultiRtsp.SourceCount | src/python/gst_read_multiple_rtsp.py:23-27 | with the stream multiplier 1, the source count is the number of URLs |
| MultiRtsp.GridOfRun | src/python/gst_read_multiple_rtsp.py:21-29 | from any command line the tiler never divides by zero: the grid has at least one row and its cells hold every source |
| MultiRtsp.TilerGrid | src/python/gst_read_multiple_rtsp.py:27-29 | n = 0 is a ZeroDivisionError. Otherwise rows >= 1 is the integer square root, the columns are the fewest that fit n, and rows <= columns |
| MultiRtsp.BuildBlocks | src/python/gst_read_multiple_rtsp.py:48-52 | fails iff there is a source and the codec is unknown. Otherwise the keys are exactly 0..n-1 and block i is RTSPBin(builder_id=i) of the i-th URL |
| MultiRtsp.PadEventsRouteToOwnBlock | src/python/gst_read_multiple_rtsp.py:49-52 | a pad event on the reader of block i (every block the loop builds, by BuildBlocks) is routed to block i |
| CArgs.FirstCharCode | src/c/argparser.c:24 | an empty string gives 0 and an ASCII first character gives its code. A high byte gives its code, or its sign-extended value mod 2^32 where char is signed |
| CArgs.ParseArguments | src/c/argparser.c:20-27 | defined iff argv has 5+ entries and both strings fit 50-byte buffers. Address and codec are copied verbatim, debug level is the first character's code, display is 1 iff argv[4] is exactly "-d", else 0. A short argv fails at index argc |
| CArgs.DebugLevelIsCharacterCode | src/c/argparser.c:24 | a digit d as argv[3] gives debug level 48 + d, so "0" gives 48 |
| CMain.PlatformAsWritten | src/c/functions.h:5-11 | as written: "aarch64" whenever __arm__ is predefined, "unknown" iff neither __arm__ nor __x86_64__ is, so an AArch64-only macro set gives "unknown" |
| CMain.Platform | src/c/functions.h:5-11 | PLATFORM is "aarch64" whenever __aarch64__ is predefined, and "unknown" iff neither __aarch64__ nor __x86_64__ is |
| CMain.SelectArgs | src/c/gst_read_rtsp.c:31-35 | argc < 2 takes the defaults; argc 2..4 reads past argv. With argc >= 5 the parse is defined iff argv[1] and argv[2] fit the 50-byte buffers (otherwise a buffer overflow), and then gives argv[1], argv[2], the character code of argv[3]'s first char as the debug level, and display iff argv[4] is "-d" |
| CMain.BuildChain | src/c/gst_read_rtsp.c:67-90 | on aarch64: defined iff codec has <= 11 characters, giving rtp<c>depay/depayer_0, <c>parse/parser_0 and nvv4l2decoder_0, with args.codec itself becoming <c>parse. Otherwise decodebin/decode_container_0 with args unchanged |
| CMain.Main | src/c/gst_read_rtsp.c:20-149 | an "unknown" platform returns -1 before arguments are read. On a known platform the run is undefined iff the argument choice or the chain building is (argv past its end, an argument overflow, a codec too long for the depayer buffer). -1 is also returned when set_state(PLAYING) fails. A running client has reader rtspsrc/rtspsrc_0 and exactly the arguments and chain those steps produced |
| CMain.ParserNameFitsCodecBuffer | src/c/gst_read_rtsp.c:70-76 | a codec that fits the 20-byte depayer buffer leaves room for "parse" in the 50-byte codec buffer, so the depayer buffer is the only overflow |
| CMain.FactoryNamesAgreeWithTable | src/c/gst_read_rtsp.c:70-76 | for h264 and h265 the C factory names equal the Python compression table's |
| CMain.DefaultsStart | src/c/gst_read_rtsp.c:31-33 | without arguments the client runs on both platforms with the default address, building rtph264depay/h264parse on aarch64 and decodebin otherwise |
| CMain.AArch64BuildExitsAsWritten | src/c/functions.h:5-11 | as written, an AArch64 compiler (which predefines __aarch64__, not __arm__) gets "unknown" and main returns -1 |
| CMain.AArch64BuildSelectsStagedChain | src/c/functions.h:5-11 | keyed on __aarch64__, an AArch64 build passes the guard and builds the staged chain |

## Left out

- Pipeline assembly is not modelled: `Gst.ElementFactory.make` of the
  downstream elements, `set_property` on them, `pipeline.add`, the static
  `.link` calls and the display/sink choice. This covers the
  `gstreamer_rtsp_inference*.py` scripts, `gst_primary_detector.py`,
  `multifilesrc_example.py`, the two `gst_read_rtsp.py` files and the rest of
  `gst_read_rtsp.c`. It is single-shot glue over a library outside the model.
- Element creation is assumed to succeed. `make` returning None when a
  plugin is missing is not modelled, so the `if rtspsrc` test in the probe
  loop is always true.
- The buffer probes and `map_mask_as_display_bgr` are not modelled. They walk
  foreign metadata or numpy arrays and only print or tally.
- Environment calls are inputs or action-log entries:
  - `cv2.VideoCapture(...).isOpened()` is one boolean observation per
    source per cycle. The code calls it up to twice on the same capture
    (gstreamer_wrappers.py:216 and :218, or :222 and :224).
  - `time.sleep`, `set_state`, `seek_simple` and `get_state` are action-log
    entries, with the state answer as an input.
  - The bus watch, the GObject main loop and logging are not modelled.
- What the bus does with an exception raised out of the callback is not
  modelled; the handler keeps the state it had reached.
- `log_fps` (pandas CSV output) is not modelled: a report carries a
  `logged` flag instead. `print_data` and the printed banners are not
  modelled.
- `utils.parse_arguments` and `set_logging` are not modelled beyond the
  `-name` default and the defaults for ip and port.
- `functions.c` (element-making wrappers and a `pad_added_handler` that
  always attempts the link) is not modelled, and neither is `display_arguments`.
- `gstreamer_wrappers.py` defines no `StreamMuxHandler`, so no
  request/release pad strategy is modelled. It also defines no
  `DecodeBinHandler(next_element=…)`/`on_pad_added` and no
  `RTSPHandler(source=…, connect_plugin=…)`, which other scripts of the repository call.
- The identical tiler formulas in `gst_multiple_rtsp_inference.py` and
  `gstreamer_multiple_rtsp_inference.py` are not modelled separately.
- The C main loop runs until the process ends, so the cleanup after
  `g_main_loop_run` is not modelled.
- Text.ParseInt: models Python `int()` only for an optional sign followed by
  ASCII digits. It does not model the stripping of surrounding whitespace,
  `_` digit separators or non-ASCII digits. Names built by the convention
  contain none of these.
- MultiRtsp.IntSqrt: models `int(n ** 0.5)` as the exact integer square root.
  Float rounding, which can differ for n at or above 2^52, is not modelled.
  The rounded-up division for the columns is also modelled exactly.
- Fps.GetFps: clock readings and the window length are real numbers, so
  float rounding of `time.time()` differences and of the division is not
  modelled.
- Liveness.CheckFlow: the float timer (`1e5`, then `+= 1`) is a natural
  number. This is exact below 2^53, a count of bus messages never reached.
- CArgs.ParseArguments: C strings are Dafny strings of byte values 1..255.
  Its always-0 return value is not modelled.

## Findings

| source | as written | input that shows it | evidently intended | confidence | as-written member | corrected member |
|---|---|---|---|---|---|---|
| src/c/functions.h:5-11 | `#if __arm__` selects PLATFORM "aarch64" | a compiler targeting AArch64, which predefines `__aarch64__` but not `__arm__`: PLATFORM is "unknown" and `main` returns -1 | select "aarch64" when compiling for AArch64 (`__aarch64__`), where the nvv4l2decoder chain exists | medium, not executed | CMain.AArch64BuildExitsAsWritten, CMain.PlatformAsWritten | CMain.Platform, CMain.AArch64BuildSelectsStagedChain |
| src/python/common/utils.py:9 | `-name` has `nargs='+'` and the string default `'stream'`; the URL comprehension iterates it | running `gst_read_multiple_rtsp.py` without `-name`: six sources `rtsp://127.0.0.1:8554/s` … `/m` | one source `rtsp://127.0.0.1:8554/stream` (default `['stream']`) | high, not executed | MultiRtsp.OmittedNameAsWrittenGivesSixSources, MultiRtsp.RunSources | MultiRtsp.OmittedNameGivesOneSource |

=== FILE: c_args.dfy ===
/** `argparser.c`: `ParsedArgs`, `DefaultParsedArgs` and `parse_arguments`.
    C strings are Dafny strings of non-NUL byte values; undefined behaviour
    (reading past the argument vector, overflowing a fixed buffer) is an
    error value rather than a precondition. */
module CArgs {
  import opened Results
  import opened Text

  /** `MAX_STR`: the size of both string buffers, terminator included. */
  const MaxStr: nat := 50

  datatype ParsedArgs = ParsedArgs(rtspAddress: string, codec: string, debugLevel: nat, display: int)

  const DefaultParsedArgs: ParsedArgs := ParsedArgs("rtsp://127.0.0.1:8554/stream", "h264", 0, 1)

  /** Undefined behaviour the C code can reach. */
  datatype Undefined =
    | ArgvPastEnd(index: nat)
    | BufferOverflow(buffer: string, needed: nat)

  /** A C string: byte values other than NUL. */
  predicate IsCString(s: string) {
    forall i :: 0 <= i < |s| ==> 0 < s[i] as int < 256
  }

  predicate AllCStrings(argv: seq<string>) {
    forall k :: 0 <= k < |argv| ==> IsCString(argv[k])
  }

  /** A string and its terminator fit a buffer of `size` bytes. */
  predicate Fits(s: string, size: nat) {
    |s| + 1 <= size
  }

  /** `(unsigned int) *s`: the first byte (the terminator for an empty
      string), sign-extended first where `char` is signed, then taken
      modulo 2^32. */
  function FirstCharCode(s: string, charIsSigned: bool): (r: nat)
    requires IsCString(s)
    ensures |s| == 0 ==> r == 0
    ensures |s| > 0 && s[0] as int < 128 ==> r == s[0] as int
    ensures |s| > 0 && s[0] as int >= 128 ==> r == if charIsSigned then 0x1_0000_0000 - 256 + s[0] as int else s[0] as int
  {
    if |s| == 0 then 0
    else
      var c := s[0] as int;
      var signed := if charIsSigned && c >= 128 then c - 256 else c;
      signed % 0x1_0000_0000
  }

  /** `parse_arguments(p, argv)`: reads `argv[1]` to `argv[4]` in order; its
      return value is always 0 and is not modelled. */
  function ParseArguments(argv: seq<string>, charIsSigned: bool): (r: Result<ParsedArgs, Undefined>)
    requires AllCStrings(argv)
    ensures r.Ok? <==> |argv| >= 5 && Fits(argv[1], MaxStr) && Fits(argv[2], MaxStr)
    ensures r.Ok? ==>
      && r.value.rtspAddress == argv[1]
      && r.value.codec == argv[2]
      && r.value.debugLevel == FirstCharCode(argv[3], charIsSigned)
      && (r.value.display == 1 <==> argv[4] == "-d")
      && (r.value.display == 0 <==> argv[4] != "-d")
    ensures |argv| < 5 && r.Err? && r.error.ArgvPastEnd? ==> r.error.index == |argv|
  {
    if |argv| <= 1 then Err(ArgvPastEnd(|argv|))
    else if !Fits(argv[1], MaxStr) then Err(BufferOverflow("rtsp_address", |argv[1]| + 1))
    else if |argv| <= 2 then Err(ArgvPastEnd(|argv|))
    else if !Fits(argv[2], MaxStr) then Err(BufferOverflow("codec", |argv[2]| + 1))
    else if |argv| <= 3 then Err(ArgvPastEnd(|argv|))
    else if |argv| <= 4 then Err(ArgvPastEnd(|argv|))
    else
      Ok(ParsedArgs(argv[1], argv[2], FirstCharCode(argv[3], charIsSigned), if argv[4] == "-d" then 1 else 0))
  }

  /** The debug level is the character code of the first character, not the
      number written: a digit `d` gives `48 + d`, so "0" gives 48. */
  lemma DebugLevelIsCharacterCode(argv: seq<string>, charIsSigned: bool)
    requires AllCStrings(argv) && ParseArguments(argv, charIsSigned).Ok?
    requires |argv[3]| > 0 && IsDigit(argv[3][0])
    ensures ParseArguments(argv, charIsSigned).value.debugLevel == 48 + DigitValue(argv[3][0])
  {
  }
}

=== FILE: c_main.dfy ===
/** The parts of `gst_read_rtsp.c`'s `main` with decisions in them: the
    platform guard, the default-or-parsed argument choice, the depayer and
    parser factory names built with `strcat`, the fixed instance names, and
    the exit code of a failed start. */
module CMain {
  import opened Results
  import opened CArgs
  import RtspBin

  /** `ELEMENT_MAX_STR_LEN`: the size of the depayer-name buffer. */
  const ElementMaxStrLen: nat := 20

  /** The `PLATFORM` macro as written, from the set of macros the compiler
      predefines: `#if __arm__` selects "aarch64". */
  function PlatformAsWritten(predefined: set<string>): (p: string)
    ensures "__arm__" in predefined ==> p == "aarch64"
    ensures p == "unknown" <==> "__arm__" !in predefined && "__x86_64__" !in predefined
    ensures "__aarch64__" in predefined && "__arm__" !in predefined && "__x86_64__" !in predefined ==> p == "unknown"
  {
    if "__arm__" in predefined then "aarch64"
    else if "__x86_64__" in predefined then "x86_64"
    else "unknown"
  }

  /** The `PLATFORM` macro keyed on the macro AArch64 compilers predefine. */
  function Platform(predefined: set<string>): (p: string)
    ensures "__aarch64__" in predefined ==> p == "aarch64"
    ensures p == "unknown" <==> "__aarch64__" !in predefined && "__x86_64__" !in predefined
  {
    if "__aarch64__" in predefined then "aarch64"
    else if "__x86_64__" in predefined then "x86_64"
    else "unknown"
  }

  /** An element made by `make_gst_element(factory, name)`. */
  datatype CElement = CElement(factory: string, name: string)

  /** The decoding chain chosen by platform. */
  datatype Chain =
    | Staged(depayer: CElement, parser: CElement, decoder: CElement)
    | Direct(decoder: CElement)

  datatype Outcome =
    | Exit(code: int)
    | UndefinedBehaviour(reason: Undefined)
    | Running(args: ParsedArgs, reader: CElement, chain: Chain)

  /** `argc < 2` takes the defaults; otherwise the four arguments are parsed. */
  function SelectArgs(argv: seq<string>, charIsSigned: bool): (r: Result<ParsedArgs, Undefined>)
    requires AllCStrings(argv)
    ensures |argv| < 2 ==> r == Ok(DefaultParsedArgs)
    ensures 2 <= |argv| < 5 ==> r.Err?
    ensures |argv| >= 5 ==> (r.Ok? <==> Fits(argv[1], MaxStr) && Fits(argv[2], MaxStr))
    ensures |argv| >= 5 && r.Err? ==> r.error.BufferOverflow?
    ensures |argv| >= 2 && r.Ok? ==> r.value.rtspAddress == argv[1] && r.value.codec == argv[2]
    ensures |argv| >= 2 && r.Ok? ==> r.value.debugLevel == FirstCharCode(argv[3], charIsSigned)
    ensures |argv| >= 2 && r.Ok? ==> (r.value.display == 1 <==> argv[4] == "-d")
    ensures |argv| >= 2 && r.Ok? ==> (r.value.display == 0 <==> argv[4] != "-d")
  {
    if |argv| < 2 then Ok(DefaultParsedArgs) else ParseArguments(argv, charIsSigned)
  }

  /** The chain for a platform. On "aarch64" the depayer name is
      `"rtp" ++ codec ++ "depay"` in a 20-byte buffer, and the parser name is
      made by appending "parse" to `args.codec` in place, which therefore
      changes too. */
  function BuildChain(platform: string, args: ParsedArgs): (r: Result<(ParsedArgs, Chain), Undefined>)
    ensures platform != "aarch64" ==> r == Ok((args, Direct(CElement("decodebin", "decode_container_0"))))
    ensures platform == "aarch64" ==> (r.Ok? <==> |args.codec| <= 11)
    ensures platform == "aarch64" && r.Ok? ==>
      && r.value.0 == args.(codec := args.codec + "parse")
      && r.value.1 == Staged(CElement("rtp" + args.codec + "depay", "depayer_0"),
                             CElement(args.codec + "parse", "parser_0"),
                             CElement("nvv4l2decoder", "nvv4l2decoder_0"))
  {
    if platform == "aarch64" then
      var depayerName := "rtp" + args.codec + "depay";
      if !Fits(depayerName, ElementMaxStrLen) then Err(BufferOverflow("depayer_name", |depayerName| + 1))
      else
        // The in-place append to the 50-byte codec buffer cannot overflow
        // here: see ParserNameFitsCodecBuffer.
        var parserName := args.codec + "parse";
        Ok((args.(codec := parserName),
            Staged(CElement(depayerName, "depayer_0"), CElement(parserName, "parser_0"),
                   CElement("nvv4l2decoder", "nvv4l2decoder_0"))))
    else
      Ok((args, Direct(CElement("decodebin", "decode_container_0"))))
  }

  /** `main` up to the main loop. `startedPlaying` is whether
      `gst_element_set_state(pipeline, PLAYING)` did not return FAILURE. */
  function Main(platform: string, argv: seq<string>, charIsSigned: bool, startedPlaying: bool): (r: Outcome)
    requires AllCStrings(argv)
    ensures platform == "unknown" ==> r == Exit(-1)
    ensures platform != "unknown" && 2 <= |argv| < 5 ==> r.UndefinedBehaviour?
    ensures r.Exit? ==> r.code == -1
    ensures r.Exit? <==> (platform == "unknown" ||
      (SelectArgs(argv, charIsSigned).Ok? && BuildChain(platform, SelectArgs(argv, charIsSigned).value).Ok? && !startedPlaying))
    ensures r.Running? ==> startedPlaying && r.reader == CElement("rtspsrc", "rtspsrc_0")
    ensures r.UndefinedBehaviour? <==> (platform != "unknown" &&
      (SelectArgs(argv, charIsSigned).Err? || BuildChain(platform, SelectArgs(argv, charIsSigned).value).Err?))
    ensures r.Running? ==> (SelectArgs(argv, charIsSigned).Ok? &&
      var built := BuildChain(platform, SelectArgs(argv, charIsSigned).value);
      built.Ok? && r.args == built.value.0 && r.chain == built.value.1)
  {
    if platform == "unknown" then Exit(-1)
    else
      match SelectArgs(argv, charIsSigned)
      case Err(u) => UndefinedBehaviour(u)
      case Ok(args) =>
        match BuildChain(platform, args)
        case Err(u) => UndefinedBehaviour(u)
        case Ok(built) =>
          if !startedPlaying then Exit(-1)
          else Running(built.0, CElement("rtspsrc", "rtspsrc_0"), built.1)
  }

  /** On "aarch64" the only overflow is the depayer buffer's: a codec short
      enough for it leaves room in the 50-byte codec buffer for "parse". */
  lemma ParserNameFitsCodecBuffer(args: ParsedArgs)
    ensures Fits("rtp" + args.codec + "depay", ElementMaxStrLen) ==> Fits(args.codec + "parse", MaxStr)
    ensures BuildChain("aarch64", args).Err? ==>
      BuildChain("aarch64", args).error == BufferOverflow("depayer_name", |args.codec| + 9)
  {
  }

  /** For the two codecs the Python table knows, the C factory names are
      the table's depayer and parser. */
  lemma FactoryNamesAgreeWithTable(codec: string)
    requires RtspBin.KnownCompression(codec)
    ensures var t := RtspBin.CompressionTable(codec).value;
      "rtp" + codec + "depay" == t.depayer && codec + "parse" == t.parser
  {
  }

  /** Without arguments, the client starts on both supported platforms with
      the default address, and on "aarch64" builds rtph264depay and h264parse. */
  lemma DefaultsStart(platform: string, argv: seq<string>, charIsSigned: bool)
    requires AllCStrings(argv) && |argv| < 2
    requires platform == "aarch64" || platform == "x86_64"
    ensures var r := Main(platform, argv, charIsSigned, true);
      && r.Running? && r.args.rtspAddress == "rtsp://127.0.0.1:8554/stream"
      && (platform == "aarch64" ==> r.chain.Staged? && r.chain.depayer.factory == "rtph264depay"
                                     && r.chain.parser.factory == "h264parse" && r.args.codec == "h264parse")
      && (platform == "x86_64" ==> r.chain == Direct(CElement("decodebin", "decode_container_0")))
  {
  }

  /** As written, a compiler targeting AArch64 (which predefines
      `__aarch64__` and not `__arm__`) gets PLATFORM "unknown", and `main`
      exits with -1 before doing anything. */
  lemma AArch64BuildExitsAsWritten(argv: seq<string>, charIsSigned: bool, startedPlaying: bool)
    requires AllCStrings(argv)
    ensures PlatformAsWritten({"__aarch64__", "__linux__"}) == "unknown"
    ensures Main(PlatformAsWritten({"__aarch64__", "__linux__"}), argv, charIsSigned, startedPlaying) == Exit(-1)
  {
  }

  /** With the platform keyed on `__aarch64__`, an AArch64 build selects the
      staged chain and never exits at the platform guard. */
  lemma AArch64BuildSelectsStagedChain(predefined: set<string>, argv: seq<string>, charIsSigned: bool)
    requires AllCStrings(argv) && "__aarch64__" in predefined && |argv| < 2
    ensures Main(Platform(predefined), argv, charIsSigned, true).Running?
    ensures Main(Platform(predefined), argv, charIsSigned, true).chain.Staged?
  {
  }
}

=== FILE: decode_bin.dfy ===
/** `DecodeBinHandler`: a decodebin source pad is linked to, or unlinked
    from, the fixed downstream sink pad only when its caps string starts
    with one of the video formats; every other pad (audio, say) is ignored. */
module DecodeBin {
  import opened Text
  import opened PadGraph

  const VideoFormats: seq<string> := ["video/x-raw", "video/h264", "video/h265"]

  /** `sum([string.startswith(f) for f in formats])`. */
  function MatchCount(caps: string, formats: seq<string>): (n: nat)
    ensures n <= |formats|
    ensures n > 0 <==> exists k :: 0 <= k < |formats| && StartsWith(caps, formats[k])
    decreases |formats|
  {
    if |formats| == 0 then 0
    else
      var rest := MatchCount(caps, formats[1..]);
      assert forall k :: 0 < k < |formats| ==> formats[k] == formats[1..][k - 1];
      (if StartsWith(caps, formats[0]) then 1 else 0) + rest
  }

  /** The truth value of the `sum`, which is the test both callbacks use. */
  predicate IsVideoCaps(caps: string) {
    MatchCount(caps, VideoFormats) > 0
  }

  /** The test accepts exactly the three video prefixes. */
  lemma VideoCapsIff(caps: string)
    ensures IsVideoCaps(caps) <==>
      StartsWith(caps, "video/x-raw") || StartsWith(caps, "video/h264") || StartsWith(caps, "video/h265")
  {
  }

  /** `decodebin_pad_added`. */
  function OnPadAdded(g: Graph, sinkPad: Pad, srcPad: Pad, caps: string, compatible: bool): (r: Graph)
    ensures !IsVideoCaps(caps) ==> r == g
    ensures g.links <= r.links <= g.links + {Link(srcPad, sinkPad)}
    ensures Link(srcPad, sinkPad) in r.links - g.links <==>
      IsVideoCaps(caps) && !IsLinked(g, srcPad) && !IsLinked(g, sinkPad) && compatible && srcPad != sinkPad
  {
    if IsVideoCaps(caps) then GstLink(g, srcPad, sinkPad, compatible) else g
  }

  /** `decodebin_pad_removed`. */
  function OnPadRemoved(g: Graph, sinkPad: Pad, srcPad: Pad, caps: string): (r: Graph)
    ensures !IsVideoCaps(caps) ==> r == g
    ensures IsVideoCaps(caps) ==> r.links == g.links - {Link(srcPad, sinkPad)}
  {
    if IsVideoCaps(caps) then GstUnlink(g, srcPad, sinkPad) else g
  }

  /** An audio pad is never linked and never unlinked. */
  lemma AudioPadIgnored(g: Graph, sinkPad: Pad, srcPad: Pad, caps: string, compatible: bool)
    requires StartsWith(caps, "audio/")
    ensures OnPadAdded(g, sinkPad, srcPad, caps, compatible) == g
    ensures OnPadRemoved(g, sinkPad, srcPad, caps) == g
  {
    VideoCapsIff(caps);
    assert caps[0] == "audio/"[0];
    assert !StartsWith(caps, "video/x-raw") && !StartsWith(caps, "video/h264") && !StartsWith(caps, "video/h265");
  }

  /** Removing a video pad right after adding it restores the graph. */
  lemma AddThenRemoveRestores(g: Graph, sinkPad: Pad, srcPad: Pad, caps: string, compatible: bool)
    requires Link(srcPad, sinkPad) !in g.links
    ensures OnPadRemoved(OnPadAdded(g, sinkPad, srcPad, caps, compatible), sinkPad, srcPad, caps) == g
  {
  }
}

=== FILE: fps.dfy ===
/** `nvutils.GetFPS`: a windowed frame counter. The clock reading of each
    call is an input, and times are real numbers. */
module Fps {

  datatype Counter = Counter(
    streamId: int,
    seconds: real,
    startTime: real,
    isFirst: bool,
    frameCount: nat,
    saveLog: bool)

  /** What one `get_fps` call does: counts the frame, reports (and, with
      `save_log`, appends to the CSV log) the rate of the closed window, or
      raises `ZeroDivisionError` when the window length is zero. */
  datatype Tick =
    | Counted(counter: Counter)
    | Reported(counter: Counter, fps: real, logged: bool)
    | ZeroDivision(counter: Counter)

  /** The module-level `frame_count`, set once when the module loads and
      never reassigned. */
  const GlobalFrameCount: nat := 0

  /** `GetFPS.__init__`: `start_time` and `frame_count` are copied from the
      module-level globals; the load time is an input. */
  function NewCounter(streamId: int, seconds: real, saveLog: bool, loadTime: real): (c: Counter)
    ensures c.isFirst && c.startTime == loadTime && c.frameCount == 0
    ensures c.streamId == streamId && c.seconds == seconds && c.saveLog == saveLog
  {
    Counter(streamId, seconds, loadTime, true, GlobalFrameCount, saveLog)
  }

  /** `get_fps` at clock reading `now`. */
  function GetFps(c: Counter, now: real): (r: Tick)
    ensures var start := if c.isFirst then now else c.startTime;
      && !r.counter.isFirst
      && r.counter.seconds == c.seconds && r.counter.saveLog == c.saveLog
      && (r.Counted? <==> now - start <= c.seconds)
      && (r.ZeroDivision? <==> now - start > c.seconds && c.seconds == 0.0)
      && (r.Counted? ==> r.counter.frameCount == c.frameCount + 1 && r.counter.startTime == start)
      && (r.Reported? ==> r.fps * c.seconds == c.frameCount as real && (r.logged <==> c.saveLog)
                          && r.counter.frameCount == 0 && r.counter.startTime == now)
      && (r.ZeroDivision? ==> r.counter.frameCount == c.frameCount && r.counter.startTime == start)
  {
    var c1 := if c.isFirst then c.(startTime := now, isFirst := false) else c;
    if now - c1.startTime > c1.seconds then
      if c1.seconds == 0.0 then ZeroDivision(c1)
      else Reported(c1.(frameCount := 0, startTime := now), c1.frameCount as real / c1.seconds, c1.saveLog)
    else
      Counted(c1.(frameCount := c1.frameCount + 1))
  }

  /** The first call never reports when the window length is not negative:
      it opens the window at `now` and counts one frame. */
  lemma FirstCallCounts(c: Counter, now: real)
    requires c.isFirst && c.seconds >= 0.0
    ensures GetFps(c, now) == Counted(c.(isFirst := false, startTime := now, frameCount := c.frameCount + 1))
  {
  }

  /** Feeds the clock readings in order; stops at the first call that raises. */
  function RunFps(c: Counter, times: seq<real>): Tick
    decreases |times|
  {
    if |times| == 0 then Counted(c)
    else
      var t := GetFps(c, times[0]);
      if t.ZeroDivision? || |times| == 1 then t else RunFps(t.counter, times[1..])
  }

  /** Inside one window every call is counted; the call that closes the
      window reports the number of calls counted in it divided by the window
      length, and the reporting call itself is not counted. */
  lemma {:induction false} WindowReportsCountedCalls(c: Counter, times: seq<real>, closing: real)
    requires !c.isFirst && c.seconds > 0.0
    requires forall k :: 0 <= k < |times| ==> times[k] - c.startTime <= c.seconds
    requires closing - c.startTime > c.seconds
    ensures RunFps(c, times + [closing]) ==
      Reported(c.(frameCount := 0, startTime := closing), (c.frameCount + |times|) as real / c.seconds, c.saveLog)
    decreases |times|
  {
    if |times| > 0 {
      var t := GetFps(c, times[0]);
      assert t == Counted(c.(frameCount := c.frameCount + 1));
      assert (times + [closing])[1..] == times[1..] + [closing];
      WindowReportsCountedCalls(t.counter, times[1..], closing);
    }
  }
}

=== FILE: liveness.dfy ===
/** `RTSPHandler.check_rtspsrc_flow`: the per-source liveness table and the
    probe-interval counter. A probe (`cv2.VideoCapture(location).isOpened()`)
    is one boolean observation per source, supplied by the caller. */
module Liveness {

  /** The monitor's part of the handler: `check_flow_enabled`,
      `_rtspsrc_flow_timer`, `_rtspsrc_flow_th` and `_rtspsrc_active`. */
  datatype Monitor = Monitor(enabled: bool, timer: nat, threshold: nat, active: map<int, bool>)

  /** `1e5`, a float in the source; every value it takes is an exact integer. */
  const InitialTimer: nat := 100000

  const Initial: Monitor := Monitor(true, InitialTimer, 0, map[])

  /** The liveness table after probing, with the handler's `alive` flag. */
  datatype Probed = Probed(active: map<int, bool>, alive: bool)

  /** The monitor after `check_rtspsrc_flow`, with the handler's `alive` flag. */
  datatype Flow = Flow(monitor: Monitor, alive: bool)

  /** Dictionary keys never repeat. */
  predicate Distinct(keys: seq<int>) {
    forall a, b :: 0 <= a < b < |keys| ==> keys[a] != keys[b]
  }

  /** The observation oracle answers for every source. */
  predicate Covers(probe: map<int, bool>, keys: seq<int>) {
    forall i :: i in keys ==> i in probe
  }

  /** Some source recorded as unreachable is observed reachable. */
  predicate Reawakened(active: map<int, bool>, keys: seq<int>, probe: map<int, bool>)
    requires Covers(probe, keys)
  {
    exists i :: i in keys && i in active && !active[i] && probe[i]
  }

  /** One pass of the probe loop for source `i` observed as `up`. */
  function ProbeSource(active: map<int, bool>, alive: bool, i: int, up: bool): (r: Probed)
    ensures r.active == active[i := up]
    ensures r.alive <==> alive && !(i in active && !active[i] && up)
  {
    if i !in active then Probed(active[i := up], alive)
    else if !active[i] && up then Probed(active[i := up], false)
    else if active[i] && !up then Probed(active[i := up], alive)
    else Probed(active, alive)
  }

  /** The probe loop over the sources, in dictionary order. Afterwards every
      probed source's entry holds its observation, other entries are kept,
      and `alive` is cleared exactly when an unreachable source came back. */
  function ProbeCycle(active: map<int, bool>, alive: bool, keys: seq<int>, probe: map<int, bool>)
    : (r: Probed)
    requires Distinct(keys) && Covers(probe, keys)
    ensures forall i :: i in r.active <==> i in active || i in keys
    ensures forall i :: i in keys ==> r.active[i] == probe[i]
    ensures forall i :: i in active && i !in keys ==> r.active[i] == active[i]
    ensures r.alive <==> alive && !Reawakened(active, keys, probe)
    decreases |keys|
  {
    if |keys| == 0 then Probed(active, alive)
    else
      var step := ProbeSource(active, alive, keys[0], probe[keys[0]]);
      assert keys[0] !in keys[1..] by {
        forall k | 0 <= k < |keys[1..]| ensures keys[1..][k] != keys[0] {
          assert keys[1..][k] == keys[k + 1];
        }
      }
      assert forall i :: i in keys[1..] ==> i in keys;
      assert forall i :: i in keys ==> i == keys[0] || i in keys[1..];
      ProbeCycle(step.active, step.alive, keys[1..], probe)
  }

  /** A cycle runs when the monitor is enabled, the timer is above the
      threshold and there is more than one source. */
  predicate Probes(m: Monitor, sourceCount: nat) {
    m.enabled && m.timer > m.threshold && sourceCount > 1
  }

  /** `check_rtspsrc_flow` with the current `alive` flag. */
  function CheckFlow(m: Monitor, alive: bool, keys: seq<int>, probe: map<int, bool>): (r: Flow)
    requires Distinct(keys) && Covers(probe, keys)
    ensures r.monitor.enabled == m.enabled && r.monitor.threshold == m.threshold
    ensures m.active.Keys <= r.monitor.active.Keys
    ensures !m.enabled ==> r == Flow(m, alive)
    ensures Probes(m, |keys|) ==> r.monitor.timer == 0
    ensures Probes(m, |keys|) ==> forall i :: i in keys ==> i in r.monitor.active && r.monitor.active[i] == probe[i]
    ensures Probes(m, |keys|) ==> (r.alive <==> alive && !Reawakened(m.active, keys, probe))
    ensures m.enabled && !Probes(m, |keys|) ==> r.monitor == m.(timer := m.timer + 1) && r.alive == alive
  {
    if m.enabled then
      if m.timer > m.threshold && |keys| > 1 then
        var cycle := ProbeCycle(m.active, alive, keys, probe);
        Flow(m.(timer := 0, active := cycle.active), cycle.alive)
      else
        Flow(m.(timer := m.timer + 1), alive)
    else
      Flow(m, alive)
  }

  predicate CoversAll(probes: seq<map<int, bool>>, keys: seq<int>) {
    forall j :: 0 <= j < |probes| ==> Covers(probes[j], keys)
  }

  /** Successive calls, one observation map per call. */
  function Run(m: Monitor, alive: bool, keys: seq<int>, probes: seq<map<int, bool>>): Flow
    requires Distinct(keys) && CoversAll(probes, keys)
    decreases |probes|
  {
    if |probes| == 0 then Flow(m, alive)
    else
      var before := Run(m, alive, keys, probes[..|probes| - 1]);
      CheckFlow(before.monitor, before.alive, keys, probes[|probes| - 1])
  }

  /** From the initial handler with several sources, the first call probes
      and afterwards probes fall on alternate calls: after `n` calls the next
      one probes exactly when `n` is even. */
  lemma {:induction false} ProbeSchedule(alive: bool, keys: seq<int>, probes: seq<map<int, bool>>)
    requires Distinct(keys) && CoversAll(probes, keys) && |keys| > 1
    ensures Run(Initial, alive, keys, probes).monitor.timer == if |probes| == 0 then InitialTimer else (|probes| - 1) % 2
    ensures Probes(Run(Initial, alive, keys, probes).monitor, |keys|) <==> |probes| % 2 == 0
    ensures Run(Initial, alive, keys, probes).monitor.enabled && Run(Initial, alive, keys, probes).monitor.threshold == 0
    decreases |probes|
  {
    if |probes| > 0 {
      var prefix := probes[..|probes| - 1];
      assert CoversAll(prefix, keys) by {
        forall j | 0 <= j < |prefix| ensures Covers(prefix[j], keys) {
          assert prefix[j] == probes[j];
        }
      }
      ProbeSchedule(alive, keys, prefix);
      var before := Run(Initial, alive, keys, prefix).monitor;
      var after := Run(Initial, alive, keys, probes).monitor;
      assert after == CheckFlow(before, Run(Initial, alive, keys, prefix).alive, keys, probes[|probes| - 1]).monitor;
      if |prefix| % 2 == 0 {
        assert Probes(before, |keys|);
        assert after.timer == 0 == (|probes| - 1) % 2;
      } else {
        assert before.timer == 0;
        assert after.timer == 1 == (|probes| - 1) % 2;
      }
    }
  }

  /** With a single source (or none) the probe never runs: the table and
      `alive` are untouched and the timer only counts calls. */
  lemma {:induction false} SingleSourceNeverProbes(m: Monitor, alive: bool, keys: seq<int>, probes: seq<map<int, bool>>)
    requires Distinct(keys) && CoversAll(probes, keys) && |keys| <= 1 && m.enabled
    ensures Run(m, alive, keys, probes) == Flow(m.(timer := m.timer + |probes|), alive)
    decreases |probes|
  {
    if |probes| > 0 {
      var prefix := probes[..|probes| - 1];
      assert CoversAll(prefix, keys) by {
        forall j | 0 <= j < |prefix| ensures Covers(prefix[j], keys) {
          assert prefix[j] == probes[j];
        }
      }
      SingleSourceNeverProbes(m, alive, keys, prefix);
    }
  }

  /** Entries are created on first probe and never removed. */
  lemma {:induction false} EntriesNeverRemoved(m: Monitor, alive: bool, keys: seq<int>, probes: seq<map<int, bool>>)
    requires Distinct(keys) && CoversAll(probes, keys)
    ensures m.active.Keys <= Run(m, alive, keys, probes).monitor.active.Keys
    decreases |probes|
  {
    if |probes| > 0 {
      var prefix := probes[..|probes| - 1];
      assert CoversAll(prefix, keys) by {
        forall j | 0 <= j < |prefix| ensures Covers(prefix[j], keys) {
          assert prefix[j] == probes[j];
        }
      }
      EntriesNeverRemoved(m, alive, keys, prefix);
    }
  }

  /** Source 0 stays reachable while source 1 is unreachable for three
      cycles and reachable on the fourth: only the fourth cycle clears
      `alive`, and a fifth cycle with both reachable clears nothing. */
  lemma ReawakeningScenario()
    ensures var keys := [0, 1];
      var down := map[0 := true, 1 := false];
      var up := map[0 := true, 1 := true];
      var c1 := ProbeCycle(map[], true, keys, down);
      var c2 := ProbeCycle(c1.active, c1.alive, keys, down);
      var c3 := ProbeCycle(c2.active, c2.alive, keys, down);
      var c4 := ProbeCycle(c3.active, c3.alive, keys, up);
      var c5 := ProbeCycle(c4.active, true, keys, up);
      c1.alive && c2.alive && c3.alive && !c4.alive && c5.alive
  {
    var keys := [0, 1];
    var down := map[0 := true, 1 := false];
    var c1 := ProbeCycle(map[], true, keys, down);
    assert c1.active == down;
    var c3 := ProbeCycle(ProbeCycle(c1.active, c1.alive, keys, down).active, true, keys, down);
    assert c3.active == down;
    assert Reawakened(c3.active, keys, map[0 := true, 1 := true]) by {
      assert 1 in keys;
    }
  }
}

=== FILE: multi_rtsp.dfy ===
/** The setup in `gst_read_multiple_rtsp.main` that the handlers depend on:
    one URL per stream name, the tiler grid, and the block map whose keys
    are the builder ids. */
module MultiRtsp {
  import opened Results
  import opened Text
  import opened RtspBin
  import ReaderPads

  const DefaultIp: string := "127.0.0.1"
  const DefaultPort: int := 8554
  const DefaultName: string := "stream"
  const StreamMultiplier: nat := 1

  /** The `-name` option: given (one or more names) or omitted. */
  datatype NameArg = Given(names: seq<string>) | Omitted

  /** Iterating a Python `str` yields its characters as one-letter strings. */
  function Characters(s: string): (r: seq<string>)
    ensures |r| == |s|
    ensures forall k :: 0 <= k < |s| ==> r[k] == [s[k]]
  {
    if |s| == 0 then [] else [[s[0]]] + Characters(s[1..])
  }

  /** The names the comprehension iterates, as written: the default is the
      string 'stream' itself, not a one-element list. */
  function NamesAsWritten(arg: NameArg): seq<string> {
    match arg
    case Given(ns) => ns
    case Omitted => Characters(DefaultName)
  }

  /** The names with the default taken as the single stream name. */
  function Names(arg: NameArg): seq<string> {
    match arg
    case Given(ns) => ns
    case Omitted => [DefaultName]
  }

  function UrlPrefix(ip: string, port: int): string {
    "rtsp://" + ip + ":" + IntToString(port) + "/"
  }

  /** `[f'rtsp://{ip}:{port}/{name}' for name in names]`. */
  function SourceUrls(ip: string, port: int, names: seq<string>): (urls: seq<string>)
    ensures |urls| == |names|
    ensures forall k :: 0 <= k < |names| ==> urls[k] == UrlPrefix(ip, port) + names[k]
  {
    if |names| == 0 then [] else [UrlPrefix(ip, port) + names[0]] + SourceUrls(ip, port, names[1..])
  }

  /** Every URL starts with the scheme and the common address, and the
      stream name is what follows it. */
  lemma UrlNameRecoverable(ip: string, port: int, names: seq<string>, k: int)
    requires 0 <= k < |names|
    ensures StartsWith(SourceUrls(ip, port, names)[k], "rtsp://")
    ensures StartsWith(SourceUrls(ip, port, names)[k], UrlPrefix(ip, port))
    ensures SourceUrls(ip, port, names)[k][|UrlPrefix(ip, port)|..] == names[k]
  {
  }

  /** The source URLs of a run, as the script computes them. argparse's
      `nargs='+'` makes a given list non-empty; an omitted `-name` iterates
      the characters of the default string, one URL per character. */
  function RunSources(ip: string, port: int, arg: NameArg): (urls: seq<string>)
    requires arg.Given? ==> |arg.names| >= 1
    ensures |urls| >= 1
    ensures arg.Given? ==> |urls| == |arg.names|
    ensures arg.Omitted? ==> |urls| == |DefaultName| == 6
    ensures arg.Omitted? ==> forall k :: 0 <= k < |urls| ==> urls[k] == UrlPrefix(ip, port) + [DefaultName[k]]
  {
    SourceUrls(ip, port, NamesAsWritten(arg))
  }

  /** `n_sources = len(rtsp_sources) * stream_multiplier`. */
  function SourceCount(urls: seq<string>): (n: nat)
    ensures n == |urls|
  {
    |urls| * StreamMultiplier
  }

  /** As written, omitting `-name` yields six URLs, one per character of 'stream'. */
  lemma OmittedNameAsWrittenGivesSixSources()
    ensures var urls := SourceUrls(DefaultIp, DefaultPort, NamesAsWritten(Omitted));
      && SourceCount(urls) == 6
      && urls[0] == UrlPrefix(DefaultIp, DefaultPort) + "s"
      && urls[5] == UrlPrefix(DefaultIp, DefaultPort) + "m"
  {
  }

  /** Taken as one name, the default yields the single stream URL, the same
      address the C client uses by default. */
  lemma OmittedNameGivesOneSource()
    ensures SourceUrls(DefaultIp, DefaultPort, Names(Omitted)) == ["rtsp://127.0.0.1:8554/stream"]
  {
    assert IntToString(8554) == "8554" by {
      assert DigitChar(8) == '8' && DigitChar(5) == '5' && DigitChar(4) == '4';
      assert NatToString(8) == "8";
      assert NatToString(85) == NatToString(8) + [DigitChar(5)] == "85";
      assert NatToString(855) == NatToString(85) + [DigitChar(5)] == "855";
      assert NatToString(8554) == NatToString(855) + [DigitChar(4)] == "8554";
    }
    assert UrlPrefix(DefaultIp, DefaultPort) + DefaultName == "rtsp://127.0.0.1:8554/stream";
  }

  datatype Grid = Grid(rows: nat, columns: nat)

  /** The tiler's only failure: `ceil(n / rows)` with `rows == 0`. */
  datatype TilerError = ZeroDivisionError

  /** `int(n ** 0.5)`, the integer square root. */
  method IntSqrt(n: nat) returns (r: nat)
    ensures r * r <= n < (r + 1) * (r + 1)
  {
    r := 0;
    while (r + 1) * (r + 1) <= n
      invariant r * r <= n
      decreases n - r * r
    {
      r := r + 1;
    }
  }

  /** From `rows * rows <= n` and `rows > 0`, the rounded-up quotient is at least `rows`. */
  lemma CeilQuotientBounds(n: nat, rows: nat)
    requires rows > 0 && rows * rows <= n
    ensures var columns := (n + rows - 1) / rows;
      rows * (columns - 1) < n <= rows * columns && rows <= columns
  {
  }

  /** `tiler_rows = int(n ** 0.5)`, `tiler_columns = ceil(n / tiler_rows)`. */
  method TilerGrid(n: nat) returns (r: Result<Grid, TilerError>)
    ensures r.Err? <==> n == 0
    ensures r.Ok? ==> var g := r.value;
      && g.rows >= 1 && g.rows * g.rows <= n < (g.rows + 1) * (g.rows + 1)
      && g.rows * (g.columns - 1) < n <= g.rows * g.columns
      && g.rows <= g.columns
  {
    var rows := IntSqrt(n);
    if rows == 0 {
      return Err(ZeroDivisionError);
    }
    CeilQuotientBounds(n, rows);
    r := Ok(Grid(rows, (n + rows - 1) / rows));
  }

  /** The tiler of a run: argparse never yields an empty source list, so the
      division in `ceil(n_sources / tiler_rows)` never raises, and the grid
      has a cell for every source. */
  method GridOfRun(ip: string, port: int, arg: NameArg) returns (r: Result<Grid, TilerError>)
    requires arg.Given? ==> |arg.names| >= 1
    ensures r.Ok?
    ensures |RunSources(ip, port, arg)| <= r.value.rows * r.value.columns
  {
    r := TilerGrid(SourceCount(RunSources(ip, port, arg)));
  }

  /** Block `i` is `RTSPBin(builder_id=i, location=urls[i], compression=codec)`. */
  predicate BuiltAt(blocks: map<int, Bin>, urls: seq<string>, codec: string, isAarch64: bool, i: int)
    requires 0 <= i < |urls|
  {
    i in blocks && Build(i, urls[i], codec, DefaultRetry, isAarch64) == Ok(blocks[i])
  }

  /** The block loop: block `i` is built with `builder_id=i` from the
      `i`-th URL and stored under key `i`. */
  function BuildBlocks(urls: seq<string>, codec: string, isAarch64: bool): (r: Result<map<int, Bin>, BuildError>)
    ensures r.Ok? <==> |urls| == 0 || KnownCompression(codec)
    ensures r.Ok? ==> forall i :: i in r.value <==> 0 <= i < |urls|
    ensures r.Ok? ==> forall i :: 0 <= i < |urls| ==> BuiltAt(r.value, urls, codec, isAarch64, i)
    decreases |urls|
  {
    if |urls| == 0 then Ok(map[])
    else
      var last := |urls| - 1;
      match BuildBlocks(urls[..last], codec, isAarch64)
      case Err(e) => Err(e)
      case Ok(blocks) =>
        match Build(last, urls[last], codec, DefaultRetry, isAarch64)
        case Err(e) => Err(e)
        case Ok(b) =>
          var r := blocks[last := b];
          assert forall i :: 0 <= i < last ==> BuiltAt(blocks, urls[..last], codec, isAarch64, i) ==> BuiltAt(r, urls, codec, isAarch64, i);
          Ok(r)
  }

  /** A pad event on the reader of block `i` is routed to block `i`: the
      keys coincide with the indices parsed from the reader names. It holds
      for every block `BuildBlocks` returns, and for any map whose key `i`
      holds the block built with `builder_id=i`. */
  lemma PadEventsRouteToOwnBlock(urls: seq<string>, codec: string, isAarch64: bool, blocks: map<int, Bin>, i: int)
    requires 0 <= i < |urls| && BuiltAt(blocks, urls, codec, isAarch64, i)
    ensures i in blocks && ReaderPads.Route(blocks[i].reader.name, blocks) == Ok(blocks[i])
  {
    var b := blocks[i];
    assert b.reader.name == ReaderName(i);
    ReaderNameRoundTrip(i);
  }
}

=== FILE: pad_graph.dfy ===
/** The part of the GStreamer pad API the handlers call, as a value: a set
    of links between named pads. `GstLink` and `GstUnlink` follow the
    library's contract (a pad has at most one peer; unlinking a pair that is
    not linked fails and changes nothing); caps negotiation is an input. */
module PadGraph {

  datatype Pad = Pad(element: string, name: string)

  datatype Link = Link(src: Pad, sink: Pad)

  datatype Graph = Graph(links: set<Link>)

  /** `gst_pad_is_linked`: the pad takes part in some link. */
  predicate IsLinked(g: Graph, p: Pad) {
    exists l :: l in g.links && (l.src == p || l.sink == p)
  }

  /** Every pad has at most one peer. */
  predicate PeersUnique(g: Graph) {
    forall l1, l2 :: l1 in g.links && l2 in g.links && (l1.src == l2.src || l1.sink == l2.sink) ==> l1 == l2
  }

  /** The links that end at a given sink pad. */
  function LinksInto(g: Graph, sink: Pad): set<Link> {
    set l | l in g.links && l.sink == sink
  }

  const Empty := Graph({})

  /** `src.link(sink)`: refused when either pad already has a peer or the
      caps do not intersect (`compatible` is the negotiation outcome). */
  function GstLink(g: Graph, src: Pad, sink: Pad, compatible: bool): (r: Graph)
    ensures g.links <= r.links <= g.links + {Link(src, sink)}
    ensures Link(src, sink) in r.links <==>
              Link(src, sink) in g.links || (!IsLinked(g, src) && !IsLinked(g, sink) && compatible && src != sink)
  {
    if !IsLinked(g, src) && !IsLinked(g, sink) && compatible && src != sink then
      Graph(g.links + {Link(src, sink)})
    else
      g
  }

  /** `src.unlink(sink)`: succeeds only when the two pads are peers. */
  function GstUnlink(g: Graph, src: Pad, sink: Pad): (r: Graph)
    ensures r.links == g.links - {Link(src, sink)}
  {
    Graph(g.links - {Link(src, sink)})
  }

  /** The library keeps every pad to at most one peer. */
  lemma LinkKeepsPeersUnique(g: Graph, src: Pad, sink: Pad, compatible: bool)
    requires PeersUnique(g)
    ensures PeersUnique(GstLink(g, src, sink, compatible))
  {
  }

  lemma UnlinkKeepsPeersUnique(g: Graph, src: Pad, sink: Pad)
    requires PeersUnique(g)
    ensures PeersUnique(GstUnlink(g, src, sink))
  {
  }

  /** With unique peers a sink pad carries at most one link. */
  lemma AtMostOneLinkInto(g: Graph, sink: Pad)
    requires PeersUnique(g)
    ensures |LinksInto(g, sink)| <= 1
  {
    var s := LinksInto(g, sink);
    if s != {} {
      var l :| l in s;
      assert s == {l};
    }
  }
}

=== FILE: reader_pads.dfy ===
/** The reader pad callbacks of `RTSPHandler`: an event on reader
    `rtspsrc_<i>` is routed, by the index parsed out of the reader's name,
    to the `sink` pad of `basic_blocks[i].connect_plugin`, which is linked
    only while unlinked and unlinked only while linked. */
module ReaderPads {
  import opened Results
  import opened PadGraph
  import opened RtspBin

  /** The exceptions a callback can raise: `int()` of a name suffix that is
      not a number (`ValueError`), or a parsed index that is not a key of
      `basic_blocks` (Python's `KeyError`). */
  datatype PadError = ValueError(name: string) | NoSuchBlock(sourceId: int)

  /** `connect_plugin.get_static_pad('sink')`. */
  function SinkPadOf(b: Bin): Pad {
    Pad(b.connectPlugin.name, "sink")
  }

  /** `basic_blocks[int(rtspsrc.get_name().split('_')[-1])]`. */
  function Route(readerName: string, blocks: map<int, Bin>): (r: Result<Bin, PadError>)
    ensures r.Ok? <==> SourceIdOf(readerName).Some? && SourceIdOf(readerName).value in blocks
    ensures r.Ok? ==> r.value == blocks[SourceIdOf(readerName).value]
    ensures SourceIdOf(readerName).None? ==> r == Err(ValueError(readerName))
    ensures SourceIdOf(readerName).Some? && r.Err? ==> r.error == NoSuchBlock(SourceIdOf(readerName).value)
  {
    match SourceIdOf(readerName)
    case None => Err(ValueError(readerName))
    case Some(id) => if id in blocks then Ok(blocks[id]) else Err(NoSuchBlock(id))
  }

  /** `on_pad_added_to_rtspsrc`: link the new pad to the routed sink pad
      unless that sink pad is already linked. */
  function OnPadAdded(g: Graph, blocks: map<int, Bin>, readerName: string, pad: Pad, compatible: bool)
    : (r: Result<Graph, PadError>)
    ensures r.Ok? <==> SourceIdOf(readerName).Some? && SourceIdOf(readerName).value in blocks
    ensures r.Ok? ==> var sink := SinkPadOf(blocks[SourceIdOf(readerName).value]);
      && g.links <= r.value.links <= g.links + {Link(pad, sink)}
      && (IsLinked(g, sink) ==> r.value == g)
      && (Link(pad, sink) in r.value.links - g.links <==>
            !IsLinked(g, sink) && !IsLinked(g, pad) && compatible && pad != sink)
  {
    match Route(readerName, blocks)
    case Err(e) => Err(e)
    case Ok(b) =>
      var sink := SinkPadOf(b);
      if !IsLinked(g, sink) then Ok(GstLink(g, pad, sink, compatible)) else Ok(g)
  }

  /** `on_pad_removed_from_rtspsrc`: unlink the pad from the routed sink pad
      if that sink pad is linked. */
  function OnPadRemoved(g: Graph, blocks: map<int, Bin>, readerName: string, pad: Pad)
    : (r: Result<Graph, PadError>)
    ensures r.Ok? <==> SourceIdOf(readerName).Some? && SourceIdOf(readerName).value in blocks
    ensures r.Ok? ==> r.value.links == g.links - {Link(pad, SinkPadOf(blocks[SourceIdOf(readerName).value]))}
  {
    match Route(readerName, blocks)
    case Err(e) => Err(e)
    case Ok(b) =>
      var sink := SinkPadOf(b);
      if IsLinked(g, sink) then Ok(GstUnlink(g, pad, sink)) else Ok(g)
  }

  /** A pad event as delivered by the reader element. */
  datatype PadEvent =
    | Added(readerName: string, pad: Pad, compatible: bool)
    | Removed(readerName: string, pad: Pad)

  /** One delivered event; a callback that raises leaves the graph as it was. */
  function Deliver(g: Graph, blocks: map<int, Bin>, e: PadEvent): Graph {
    var r := match e
      case Added(n, p, c) => OnPadAdded(g, blocks, n, p, c)
      case Removed(n, p) => OnPadRemoved(g, blocks, n, p);
    if r.Ok? then r.value else g
  }

  function DeliverAll(g: Graph, blocks: map<int, Bin>, events: seq<PadEvent>): Graph
    decreases |events|
  {
    if |events| == 0 then g else DeliverAll(Deliver(g, blocks, events[0]), blocks, events[1..])
  }

  /** Any sequence of pad-added and pad-removed events, in any order and
      with any repetition, leaves every sink pad with at most one link. */
  lemma {:induction false} AtMostOneLinkPerSink(g: Graph, blocks: map<int, Bin>, events: seq<PadEvent>, sink: Pad)
    requires PeersUnique(g)
    ensures PeersUnique(DeliverAll(g, blocks, events))
    ensures |LinksInto(DeliverAll(g, blocks, events), sink)| <= 1
    decreases |events|
  {
    if |events| == 0 {
      AtMostOneLinkInto(g, sink);
    } else {
      var g1 := Deliver(g, blocks, events[0]);
      assert PeersUnique(g1) by {
        match events[0]
        case Added(n, p, c) =>
          if OnPadAdded(g, blocks, n, p, c).Ok? {
            var sinkPad := SinkPadOf(Route(n, blocks).value);
            if !IsLinked(g, sinkPad) {
              LinkKeepsPeersUnique(g, p, sinkPad, c);
            }
          }
        case Removed(n, p) =>
          if OnPadRemoved(g, blocks, n, p).Ok? {
            var sinkPad := SinkPadOf(Route(n, blocks).value);
            if IsLinked(g, sinkPad) {
              UnlinkKeepsPeersUnique(g, p, sinkPad);
            }
          }
      }
      AtMostOneLinkPerSink(g1, blocks, events[1..], sink);
    }
  }

  /** A repeated pad-added event changes nothing more. */
  lemma PadAddedIdempotent(g: Graph, blocks: map<int, Bin>, readerName: string, pad: Pad, compatible: bool)
    requires OnPadAdded(g, blocks, readerName, pad, compatible).Ok?
    ensures var g1 := OnPadAdded(g, blocks, readerName, pad, compatible).value;
      OnPadAdded(g1, blocks, readerName, pad, compatible) == Ok(g1)
  {
    var sink := SinkPadOf(Route(readerName, blocks).value);
    var g1 := OnPadAdded(g, blocks, readerName, pad, compatible).value;
    if Link(pad, sink) in g1.links {
      assert IsLinked(g1, sink);
    }
  }

  /** A repeated pad-removed event changes nothing more. */
  lemma PadRemovedIdempotent(g: Graph, blocks: map<int, Bin>, readerName: string, pad: Pad)
    requires OnPadRemoved(g, blocks, readerName, pad).Ok?
    ensures var g1 := OnPadRemoved(g, blocks, readerName, pad).value;
      OnPadRemoved(g1, blocks, readerName, pad) == Ok(g1)
  {
    var sink := SinkPadOf(Route(readerName, blocks).value);
    var g1 := OnPadRemoved(g, blocks, readerName, pad).value;
    assert g1.links - {Link(pad, sink)} == g1.links;
  }

  /** Removing the pad that was just linked restores the graph. */
  lemma AddThenRemoveRestores(g: Graph, blocks: map<int, Bin>, readerName: string, pad: Pad, compatible: bool)
    requires OnPadAdded(g, blocks, readerName, pad, compatible).Ok?
    requires var sink := SinkPadOf(Route(readerName, blocks).value); Link(pad, sink) !in g.links
    ensures var g1 := OnPadAdded(g, blocks, readerName, pad, compatible).value;
      OnPadRemoved(g1, blocks, readerName, pad) == Ok(g)
  {
    var sink := SinkPadOf(Route(readerName, blocks).value);
    var g1 := OnPadAdded(g, blocks, readerName, pad, compatible).value;
    assert g1.links - {Link(pad, sink)} == g.links;
  }
}

=== FILE: reconnection.dfy ===
/** `RTSPHandler`'s bus-message path: the EOS latch, `check_state`, and the
    single-attempt recovery in `reconnection_callback`. The pipeline is
    outside the model: its `get_state` answer is an input and every call
    the handler makes on it (and every sleep) is an entry in an action log. */
module Reconnection {
  import opened Liveness

  /** `Gst.MessageType`, of which only EOS is inspected. */
  datatype MessageType = Eos | Error | StateChanged | OtherMessage

  /** `Gst.State`. */
  datatype State = VoidPending | Null | Ready | Paused | Playing

  /** `Gst.StateChangeReturn`. */
  datatype StateChangeReturn = Failure | Success | Async | NoPreroll

  /** The `(result, state, pending)` triple `get_state` answers. */
  datatype StateQuery = StateQuery(result: StateChangeReturn, state: State, pending: State)

  /** What the handler does to the pipeline (or the process), in order.
      A sleep is in seconds; the `get_state` timeout is a `GstClockTime`,
      in nanoseconds. */
  datatype Action =
    | Sleep(seconds: nat)
    | SetState(target: State)
    | SeekToZero
    | QueryState(timeoutNs: nat)

  datatype Handler = Handler(
    alive: bool,
    caughtEos: bool,
    monitor: Monitor,
    callbackDelay: nat,
    reconnWait: nat,
    getStateWait: nat)

  /** A callback either returns or raises out of the bus handler; either
      way the handler keeps the state it had reached. */
  datatype Outcome =
    | Returned(handler: Handler, actions: seq<Action>)
    | Raised(handler: Handler, actions: seq<Action>)

  /** The handler as constructed, and the `set_state(PLAYING)` it issues. */
  function NewHandler(): (r: Outcome)
    ensures r.Returned?
    ensures r.handler.alive && !r.handler.caughtEos && r.handler.monitor == Initial
    ensures r.handler.reconnWait == 10 && r.handler.getStateWait == 5
    ensures r.actions == [SetState(Playing)]
  {
    Returned(Handler(true, false, Initial, 5, 10, 5), [SetState(Playing)])
  }

  /** `check_eos`: while unlatched, EOS latches and marks the pipeline dead
      and any other message marks it alive; once latched nothing changes. */
  function CheckEos(h: Handler, t: MessageType): (r: Handler)
    ensures h.caughtEos ==> r == h
    ensures !h.caughtEos && t == Eos ==> r == h.(caughtEos := true, alive := false)
    ensures !h.caughtEos && t != Eos ==> r == h.(alive := true)
  {
    if !h.caughtEos then
      if t == Eos then h.(caughtEos := true, alive := false) else h.(alive := true)
    else
      h
  }

  /** `check_state(state_type)`: the pipeline is in the target state and the
      query itself succeeded; the pending state is not consulted, and an
      `ASYNC` answer (a change still in progress) is a failed check. */
  predicate CheckState(q: StateQuery, target: State)
    ensures CheckState(q, target) <==> q == StateQuery(Success, target, q.pending)
    ensures q.result == Async ==> !CheckState(q, target)
  {
    q.state == target && q.result == Success
  }

  /** One pass of the recovery loop up to the state check. */
  function RecoverySteps(h: Handler): seq<Action> {
    [Sleep(h.reconnWait), SetState(Null), SetState(Ready), SetState(Playing), SeekToZero,
     Sleep(h.reconnWait), QueryState(h.getStateWait)]
  }

  /** The handler after `check_eos` and then `check_rtspsrc_flow`. */
  function Checked(h: Handler, t: MessageType, keys: seq<int>, probe: map<int, bool>): Handler
    requires Distinct(keys) && Covers(probe, keys)
  {
    var e := CheckEos(h, t);
    var flow := CheckFlow(e.monitor, e.alive, keys, probe);
    e.(monitor := flow.monitor, alive := flow.alive)
  }

  /** `reconnection_callback`. The recovery loop runs while `alive` is false;
      a confirmed PLAYING state ends it after one pass, anything else raises,
      so it never runs a second pass. */
  function ReconnectionCallback(h: Handler, t: MessageType, keys: seq<int>, probe: map<int, bool>, query: StateQuery)
    : (r: Outcome)
    requires Distinct(keys) && Covers(probe, keys)
    ensures var c := Checked(h, t, keys, probe);
      && r.handler.monitor == c.monitor
      && (r.actions == [] <==> c.alive)
      && (r.actions != [] ==> |r.actions| >= 7 && r.actions[..7] == RecoverySteps(h))
      && (r.Returned? <==> r.handler.alive)
      && (r.Raised? <==> !c.alive && !CheckState(query, Playing))
      && (r.Raised? ==> r.handler == c && r.actions == RecoverySteps(h) + [QueryState(h.getStateWait)])
      && (r.Returned? && r.actions != [] ==> !r.handler.caughtEos && |r.actions| == 7)
      && (r.actions == [] ==> r.handler == c)
    // `check_eos` runs first: an unlatched non-EOS message marks the pipeline
    // alive before the probe, so recovery starts exactly when the probe sees
    // a source come back, and an unlatched EOS always starts it.
    ensures !h.caughtEos && t != Eos ==>
      (r.actions != [] <==> Probes(h.monitor, |keys|) && Reawakened(h.monitor.active, keys, probe))
    ensures !h.caughtEos && t == Eos ==> r.actions != []
  {
    var c := Checked(h, t, keys, probe);
    if c.alive then Returned(c, [])
    else if CheckState(query, Playing) then Returned(c.(alive := true, caughtEos := false), RecoverySteps(h))
    else Raised(c, RecoverySteps(h) + [QueryState(h.getStateWait)])
  }

  /** Once latched, no sequence of messages changes what `check_eos` sees. */
  lemma {:induction false} LatchHolds(h: Handler, messages: seq<MessageType>)
    requires h.caughtEos
    ensures CheckEosAll(h, messages) == h
    decreases |messages|
  {
    if |messages| > 0 {
      LatchHolds(CheckEos(h, messages[0]), messages[1..]);
    }
  }

  function CheckEosAll(h: Handler, messages: seq<MessageType>): Handler
    decreases |messages|
  {
    if |messages| == 0 then h else CheckEosAll(CheckEos(h, messages[0]), messages[1..])
  }

  /** From the unlatched state, the latch is set after a message sequence
      exactly when the sequence holds an EOS, and then the pipeline is dead. */
  lemma {:induction false} LatchSetIffEos(h: Handler, messages: seq<MessageType>)
    requires !h.caughtEos
    ensures CheckEosAll(h, messages).caughtEos <==> Eos in messages
    ensures Eos in messages ==> !CheckEosAll(h, messages).alive
    ensures |messages| > 0 && Eos !in messages ==> CheckEosAll(h, messages).alive
    decreases |messages|
  {
    if |messages| > 0 {
      var h1 := CheckEos(h, messages[0]);
      if messages[0] == Eos {
        LatchHolds(h1, messages[1..]);
      } else {
        assert Eos in messages <==> Eos in messages[1..];
        LatchSetIffEos(h1, messages[1..]);
      }
    }
  }

  /** An EOS on a running pipeline starts recovery; a PLAYING/SUCCESS answer
      clears both the dead mark and the EOS latch. */
  lemma EosRecoveryScenario(h: Handler, keys: seq<int>, probe: map<int, bool>, pending: State)
    requires Distinct(keys) && Covers(probe, keys)
    requires h.alive && !h.caughtEos
    ensures var r := ReconnectionCallback(h, Eos, keys, probe, StateQuery(Success, Playing, pending));
      && r == Returned(r.handler, RecoverySteps(h))
      && r.handler.alive && !r.handler.caughtEos
  {
  }

  /** After a failed recovery triggered by EOS the latch stays set, so the
      next message of any type starts another recovery pass. */
  lemma FailedEosRecoveryRetriesOnNextMessage(
    h: Handler, t1: MessageType, t2: MessageType, keys: seq<int>, p1: map<int, bool>, p2: map<int, bool>,
    q1: StateQuery, q2: StateQuery)
    requires Distinct(keys) && Covers(p1, keys) && Covers(p2, keys)
    requires var r := ReconnectionCallback(h, t1, keys, p1, q1); r.Raised? && r.handler.caughtEos
    ensures var h1 := ReconnectionCallback(h, t1, keys, p1, q1).handler;
      ReconnectionCallback(h1, t2, keys, p2, q2).actions != []
  {
    var h1 := ReconnectionCallback(h, t1, keys, p1, q1).handler;
    assert CheckEos(h1, t2) == h1;
  }

  /** After a failed recovery triggered by a reawakened source (no EOS
      latched), the next non-EOS message marks the pipeline alive again and
      the probe that triggered it does not run on that call, so no recovery
      is attempted. */
  lemma FailedFlowRecoveryAbandoned(
    h: Handler, t1: MessageType, t2: MessageType, keys: seq<int>, p1: map<int, bool>, p2: map<int, bool>,
    q1: StateQuery, q2: StateQuery)
    requires Distinct(keys) && Covers(p1, keys) && Covers(p2, keys)
    requires h.monitor.threshold == 0
    requires var r := ReconnectionCallback(h, t1, keys, p1, q1); r.Raised? && !r.handler.caughtEos
    requires t2 != Eos
    ensures var h1 := ReconnectionCallback(h, t1, keys, p1, q1).handler;
      ReconnectionCallback(h1, t2, keys, p2, q2) == Returned(h1.(alive := true, monitor := h1.monitor.(timer := 1)), [])
  {
  }
}

=== FILE: results.dfy ===
/** Failure-carrying values shared by every module of the model: a Python
    exception, a C undefined behaviour or a missing dictionary key is an
    `Err` or a `None`, never a precondition. */
module Results {

  datatype Option<+T> = None | Some(value: T)

  datatype Result<+T, +E> = Ok(value: T) | Err(error: E)
}

=== FILE: rtsp_bin.dfy ===
/** `RTSPBin._build`: the element chain of one RTSP source. The platform
    flag is resolved once, before the chain is built, and passed in. */
module RtspBin {
  import opened Results
  import opened Text

  /** A property value set with `set_property`. */
  datatype Prop = StrProp(s: string) | IntProp(i: int)

  /** An element made by `Gst.ElementFactory.make(factory, name)`, with the
      properties the builder sets on it. */
  datatype Element = Element(factory: string, name: string, props: map<string, Prop>)

  /** One row of the compression table. */
  datatype CodecElements = CodecElements(depayer: string, parser: string)

  /** A built source chain. `connectPlugin` is the element whose `sink` pad
      the reader's dynamic pad is linked to. */
  datatype Bin = Bin(
    builderId: int,
    location: string,
    compression: string,
    retry: int,
    reader: Element,
    depayer: Option<Element>,
    parser: Option<Element>,
    decoder: Element,
    connectPlugin: Element)

  /** The `KeyError` raised by the compression-table lookup. */
  datatype BuildError = KeyError(key: string)

  /** `GstRtsp.RTSPLowerTrans.TCP`. */
  const LowerTransTcp: int := 4
  const DefaultRetry: int := 25000
  const EnableMaxPerformance: int := 1
  const EnableFrameTypeReporting: int := 0

  /** The compression table: only `h264` and `h265` have entries. */
  function CompressionTable(compression: string): Option<CodecElements> {
    if compression == "h264" then Some(CodecElements("rtph264depay", "h264parse"))
    else if compression == "h265" then Some(CodecElements("rtph265depay", "h265parse"))
    else None
  }

  predicate KnownCompression(compression: string) {
    compression == "h264" || compression == "h265"
  }

  /** The instance-name convention: `base + f'_{builder_id}'`. */
  function InstanceName(base: string, builderId: int): string {
    base + "_" + IntToString(builderId)
  }

  function ReaderName(builderId: int): string {
    InstanceName("rtspsrc", builderId)
  }

  /** The index a handler recovers from an element name:
      `int(name.split('_')[-1])`; `None` is the `ValueError`. */
  function SourceIdOf(name: string): Option<int> {
    ParseInt(LastSegment(name, '_'))
  }

  /** A name without an underscore is read as a whole. */
  lemma SourceIdOfWholeName(name: string)
    requires '_' !in name
    ensures SourceIdOf(name) == ParseInt(name)
  {
    LastSegmentWithoutSeparator(name, '_');
  }

  /** With an underscore at `k` and none after it, the index is `int()` of
      the text after position `k`. */
  lemma SourceIdAfterLastUnderscore(name: string, k: int)
    requires 0 <= k < |name| && name[k] == '_' && '_' !in name[k + 1..]
    ensures SourceIdOf(name) == ParseInt(name[k + 1..])
  {
    LastSegmentByLastSeparator(name, '_');
  }

  /** Builds the chain. The table lookup comes first, so an unknown
      compression raises before any element is made. */
  function Build(builderId: int, location: string, compression: string, retry: int, isAarch64: bool)
    : (r: Result<Bin, BuildError>)
    ensures r.Err? <==> !KnownCompression(compression)
    ensures r.Err? ==> r.error == KeyError(compression)
    ensures r.Ok? ==> var b := r.value;
      && b.builderId == builderId && b.location == location
      && b.reader.factory == "rtspsrc" && b.reader.name == "rtspsrc_" + IntToString(builderId)
      && b.reader.props == map["location" := StrProp(location), "protocols" := IntProp(LowerTransTcp),
                               "retry" := IntProp(retry)]
    ensures r.Ok? && isAarch64 ==> var b := r.value;
      && b.depayer.Some? && b.parser.Some?
      && b.depayer.value.factory == "rtp" + compression + "depay"
      && b.parser.value.factory == compression + "parse"
      && b.decoder.factory == "nvv4l2decoder"
      && b.decoder.props == map["enable-max-performance" := IntProp(1), "enable-frame-type-reporting" := IntProp(0)]
      && b.connectPlugin == b.depayer.value
    ensures r.Ok? && !isAarch64 ==> var b := r.value;
      && b.depayer.None? && b.parser.None?
      && b.decoder.factory == "decodebin" && b.decoder.name == "decode_container_" + IntToString(builderId)
      && b.connectPlugin == b.decoder
  {
    match CompressionTable(compression)
    case None => Err(KeyError(compression))
    case Some(cur) =>
      var reader := Element("rtspsrc", ReaderName(builderId),
        map["location" := StrProp(location), "protocols" := IntProp(LowerTransTcp), "retry" := IntProp(retry)]);
      if isAarch64 then
        var depayer := Element(cur.depayer, InstanceName(cur.depayer, builderId), map[]);
        var parser := Element(cur.parser, InstanceName(cur.parser, builderId), map[]);
        var decoder := Element("nvv4l2decoder", InstanceName("nvv4l2decoder", builderId),
          map["enable-max-performance" := IntProp(EnableMaxPerformance),
              "enable-frame-type-reporting" := IntProp(EnableFrameTypeReporting)]);
        Ok(Bin(builderId, location, compression, retry, reader, Some(depayer), Some(parser), decoder, depayer))
      else
        var decoder := Element("decodebin", InstanceName("decode_container", builderId), map[]);
        Ok(Bin(builderId, location, compression, retry, reader, None, None, decoder, decoder))
  }

  /** `nvutils.is_aarch64`: the machine field of `platform.uname()`,
      compared exactly, so neither "arm64" nor "AARCH64" qualifies. */
  predicate IsAarch64(machine: string)
    ensures IsAarch64(machine) <==> machine == "aarch64"
    ensures IsAarch64(machine) ==> machine != "arm64" && machine != "AARCH64"
  {
    machine == "aarch64"
  }

  /** The staged chain (depayer, parser, hardware decoder) is built exactly
      on an "aarch64" machine; any other machine gets one decodebin. */
  lemma ChainFollowsMachine(builderId: int, location: string, compression: string, retry: int, machine: string)
    requires KnownCompression(compression)
    ensures var b := Build(builderId, location, compression, retry, IsAarch64(machine)).value;
      && (b.depayer.Some? <==> machine == "aarch64")
      && (b.connectPlugin.factory == "decodebin" <==> machine != "aarch64")
  {
  }

  /** The name ↔ index round trip: the index parsed from the reader's name
      is the builder id, for every integer id. */
  lemma ReaderNameRoundTrip(builderId: int)
    ensures SourceIdOf(ReaderName(builderId)) == Some(builderId)
  {
    InstanceNameRoundTrip("rtspsrc", builderId);
  }

  /** The same holds for every name built by the convention, whatever the base. */
  lemma InstanceNameRoundTrip(base: string, builderId: int)
    ensures SourceIdOf(InstanceName(base, builderId)) == Some(builderId)
  {
    LastSegmentAfterSeparator(base, '_', IntToString(builderId));
    assert InstanceName(base, builderId) == base + ['_'] + IntToString(builderId);
    ParseIntRoundTrip(builderId);
  }

  /** Every element of a built chain carries its builder id in its name. */
  lemma ChainNamesCarryId(builderId: int, location: string, compression: string, retry: int, isAarch64: bool)
    requires Build(builderId, location, compression, retry, isAarch64).Ok?
    ensures var b := Build(builderId, location, compression, retry, isAarch64).value;
      && SourceIdOf(b.reader.name) == Some(builderId)
      && SourceIdOf(b.decoder.name) == Some(builderId)
      && SourceIdOf(b.connectPlugin.name) == Some(builderId)
      && (b.depayer.Some? ==> SourceIdOf(b.depayer.value.name) == Some(builderId))
      && (b.parser.Some? ==> SourceIdOf(b.parser.value.name) == Some(builderId))
  {
    var cur := CompressionTable(compression).value;
    ReaderNameRoundTrip(builderId);
    InstanceNameRoundTrip(cur.depayer, builderId);
    InstanceNameRoundTrip(cur.parser, builderId);
    InstanceNameRoundTrip("nvv4l2decoder", builderId);
    InstanceNameRoundTrip("decode_container", builderId);
  }
}

=== FILE: text.dfy ===
/** The string operations the element-naming convention relies on:
    Python's `str(int)`, `str.split` and `int(str)`, and `str.startswith`. */
module Text {
  import opened Results

  predicate IsDigit(c: char) {
    '0' <= c <= '9'
  }

  function DigitChar(d: nat): (c: char)
    requires d < 10
    ensures IsDigit(c)
  {
    ('0' as int + d) as char
  }

  function DigitValue(c: char): (d: nat)
    requires IsDigit(c)
    ensures d < 10
  {
    c as int - '0' as int
  }

  predicate AllDigits(s: string) {
    |s| > 0 && forall i :: 0 <= i < |s| ==> IsDigit(s[i])
  }

  /** Python's `s.startswith(prefix)`. */
  predicate StartsWith(s: string, prefix: string) {
    |prefix| <= |s| && s[..|prefix|] == prefix
  }

  /** Python's `str(n)` for a non-negative integer: the shortest decimal spelling. */
  function NatToString(n: nat): (r: string)
    ensures AllDigits(r)
    ensures |r| > 1 ==> r[0] != '0'
    decreases n
  {
    if n < 10 then [DigitChar(n)] else NatToString(n / 10) + [DigitChar(n % 10)]
  }

  /** Python's `str(n)` for any integer: a minus sign, then the digits of |n|. */
  function IntToString(n: int): (r: string)
    ensures |r| > 0 && (n < 0 <==> r[0] == '-')
    ensures '_' !in r
  {
    if n < 0 then "-" + NatToString(-n) else NatToString(n)
  }

  /** The value of a string of decimal digits, most significant digit first. */
  function DigitsValue(s: string): nat
    requires forall i :: 0 <= i < |s| ==> IsDigit(s[i])
    decreases |s|
  {
    if |s| == 0 then 0 else DigitsValue(s[..|s| - 1]) * 10 + DigitValue(s[|s| - 1])
  }

  /** Python's `int(s)` on a string that is an optional sign followed by
      ASCII digits; `None` stands for the `ValueError` raised otherwise. */
  function ParseInt(s: string): Option<int> {
    if |s| > 0 && s[0] == '-' && AllDigits(s[1..]) then Some(0 - DigitsValue(s[1..]) as int)
    else if |s| > 0 && s[0] == '+' && AllDigits(s[1..]) then Some(DigitsValue(s[1..]))
    else if AllDigits(s) then Some(DigitsValue(s))
    else None
  }

  /** Python's `s.split(sep)` for a one-character separator: the maximal
      separator-free pieces, empty pieces included. */
  function Split(s: string, sep: char): (parts: seq<string>)
    ensures |parts| >= 1
    ensures forall k :: 0 <= k < |parts| ==> sep !in parts[k]
  {
    if |s| == 0 then [""]
    else
      var rest := Split(s[1..], sep);
      if s[0] == sep then [""] + rest else [[s[0]] + rest[0]] + rest[1..]
  }

  /** Python's `sep.join(parts)`. */
  function Join(parts: seq<string>, sep: char): string
    requires |parts| >= 1
  {
    if |parts| == 1 then parts[0] else parts[0] + [sep] + Join(parts[1..], sep)
  }

  /** Python's `s.split(sep)[-1]`. */
  function LastSegment(s: string, sep: char): string {
    var parts := Split(s, sep);
    parts[|parts| - 1]
  }

  /** Reading back the decimal spelling of a natural number gives the number. */
  lemma {:induction false} NatToStringRoundTrip(n: nat)
    ensures DigitsValue(NatToString(n)) == n
    decreases n
  {
    if n >= 10 {
      var prefix := NatToString(n / 10);
      var s := prefix + [DigitChar(n % 10)];
      assert s[..|s| - 1] == prefix;
      NatToStringRoundTrip(n / 10);
    }
  }

  /** `int(str(n)) == n` for every integer, negative ones included. */
  lemma ParseIntRoundTrip(n: int)
    ensures ParseInt(IntToString(n)) == Some(n)
  {
    if n < 0 {
      var s := IntToString(n);
      assert s[1..] == NatToString(-n);
      NatToStringRoundTrip(-n);
    } else {
      NatToStringRoundTrip(n);
    }
  }

  /** A string without any decimal digit is not an integer literal. */
  lemma ParseIntNeedsDigits(s: string)
    requires forall i :: 0 <= i < |s| ==> !IsDigit(s[i])
    ensures ParseInt(s) == None
  {
    if |s| > 1 {
      assert !IsDigit(s[1..][0]);
    }
  }

  /** A string that contains no separator splits into itself. */
  lemma {:induction false} SplitWithoutSeparator(s: string, sep: char)
    requires sep !in s
    ensures Split(s, sep) == [s]
    decreases |s|
  {
    if |s| > 0 {
      assert sep !in s[1..];
      SplitWithoutSeparator(s[1..], sep);
      assert [s[0]] + s[1..] == s;
    }
  }

  /** Splitting distributes over a separator occurrence. */
  lemma {:induction false} SplitAtSeparator(a: string, sep: char, b: string)
    ensures Split(a + [sep] + b, sep) == Split(a, sep) + Split(b, sep)
    decreases |a|
  {
    var s := a + [sep] + b;
    if |a| == 0 {
      assert s[1..] == b;
    } else {
      assert s[1..] == a[1..] + [sep] + b;
      SplitAtSeparator(a[1..], sep, b);
    }
  }

  /** `s.split(sep)[-1]` of `a + sep + b` is `b` whenever `b` holds no separator. */
  lemma LastSegmentAfterSeparator(a: string, sep: char, b: string)
    requires sep !in b
    ensures LastSegment(a + [sep] + b, sep) == b
  {
    SplitAtSeparator(a, sep, b);
    SplitWithoutSeparator(b, sep);
  }

  /** Without a separator, `split(sep)[-1]` is the whole string. */
  lemma LastSegmentWithoutSeparator(s: string, sep: char)
    ensures sep !in s ==> LastSegment(s, sep) == s
  {
    if sep !in s {
      SplitWithoutSeparator(s, sep);
    }
  }

  /** `split(sep)[-1]` is what follows the last separator, or the whole
      string when there is none. */
  lemma LastSegmentByLastSeparator(s: string, sep: char)
    ensures sep !in s ==> LastSegment(s, sep) == s
    ensures forall k :: 0 <= k < |s| && s[k] == sep && sep !in s[k + 1..] ==> LastSegment(s, sep) == s[k + 1..]
  {
    LastSegmentWithoutSeparator(s, sep);
    forall k | 0 <= k < |s| && s[k] == sep && sep !in s[k + 1..]
      ensures LastSegment(s, sep) == s[k + 1..]
    {
      assert s == s[..k] + [sep] + s[k + 1..];
      LastSegmentAfterSeparator(s[..k], sep, s[k + 1..]);
    }
  }

  /** Joining the pieces of a split with the same separator rebuilds the string. */
  lemma {:induction false} JoinSplit(s: string, sep: char)
    ensures Join(Split(s, sep), sep) == s
    decreases |s|
  {
    if |s| > 0 {
      var rest := Split(s[1..], sep);
      JoinSplit(s[1..], sep);
      if s[0] == sep {
        assert Split(s, sep)[1..] == rest;
      } else {
        var parts := Split(s, sep);
        if |rest| == 1 {
          assert parts == [[s[0]] + rest[0]];
        } else {
          assert parts[1..] == rest[1..];
          assert Join(rest, sep) == rest[0] + [sep] + Join(rest[1..], sep);
        }
      }
    }
  }
}
